=== FILE: README.md ===
# Portfolio page script, modelled in Dafny

This project models the decision logic embedded in `script.js`, the front-end script of a static
portfolio site. The DOM, timers, clipboard and network are gone. Their inputs become parameters
and their effects become values.

- **Device classifier** (`Device`): `isMobileDevice` over the user agent, the viewport width and
  the touch signals.
- **Parallax transition controller** (`Transition`): the one-shot `isTransitioning` guard, the
  two body marker classes, and the single pending navigation. The 600 ms timer is a pending slot
  that fires later with the device verdict current at that moment. The four copy-pasted
  `transitionTo…` methods are one operation over `Dest = About | Work | Photos | Reel`.
- **Bootstrap and lifecycle** (`Lifecycle`): the class reset done on `DOMContentLoaded`, and
  the `pageshow` / `visibilitychange` reload rule.
- **Navigation clicks** (`NavLinks`): the handler on a discovered button, and the last-resort
  `.nav-link` handler, which reads the destination from the link text.
- **Contact clicks** (`Contact`): `handlePhoneClick` / `handleEmailClick`, and how the copy
  completes on the confirmation element, including the legacy `execCommand` fallback.
- **Notifications** (`Notify`): the kind-to-style switch of `showDownloadNotification`, the
  displayed text, and the reused overlay element with its fade-out timers.
- **Resume download** (`Resume`): `downloadResume`'s branching on the HEAD probe.

Supporting modules:

- `Text`: ASCII lower-casing, and JavaScript's `includes` with an independent
  "some position holds an occurrence" specification.
- `Browser`: one `Effect` datatype for what handlers ask of the browser (prevent default, stop
  propagation, clipboard write, HEAD probe, download synthesis, notification), and counting
  over effect logs.
- `Wrappers`: `Option`.

The handlers follow the code as written, including two behaviours the code's own comments
suggest were not meant; both are recorded under Findings, each with a corrected definition and
its proof:

- The notification fade-out timers are never cancelled. The comments say "Hide after 4
  seconds" (script.js:817) and "Hide after 2 seconds" (script.js:667), yet an earlier call's
  timer hides a later message early.
- Without `navigator.clipboard` the copy handlers throw. So the fallback "for older browsers"
  (script.js:573, 602) never runs there.

## Model

| member | source | states |
|---|---|---|
| Text.Lower | script.js:438 | lower-casing keeps the length, maps each character by the ASCII rule, and leaves no upper-case letter |
| Text.LowerIdempotent | script.js:438 | lower-casing an already lower-cased agent changes nothing |
| Text.IncludesCorrect | script.js:440 | the left-to-right `includes` scan answers true exactly when some position of the string holds the substring |
| Text.IncludesAnyCorrect | script.js:440 | `keywords.some(k => ua.includes(k))` is true exactly when some keyword occurs in the agent |
| Device.IsMobileDevice | script.js:437-445 | mobile iff some keyword in {mobile, android, iphone, ipad, blackberry, webos} occurs in the lower-cased agent, or (width <= 768 and `ontouchstart` present or `maxTouchPoints > 0`) |
| Device.VerdictIgnoresCase | script.js:438-440 | the verdict is the same for an agent and its lower-cased form |
| Device.WidthThreshold | script.js:441-444 | with no keyword and touch present, mobile iff width <= 768: width 768 counts as small, and touch on a wider screen is desktop |
| Device.IphoneIsMobile | script.js:438-440 | an agent containing "iPhone" is mobile whatever the width and touch signals, because the search runs on the lower-cased agent |
| Transition.TargetUrlInjective | script.js:138-147 | the URLs `d/d-mobile.html` / `d/d-desktop.html` differ for different destinations or verdicts |
| Transition.FirstTriggerCommits | script.js:123-147 | a trigger on an idle controller sets the guard, adds both `page-transition-active` and `parallax-slide-out` and nothing else, and arms one navigation to that destination: it is pending and none has been performed yet |
| Transition.CommittedIsForever | script.js:123-126 | once the guard is set, no later trigger or timer changes the destination, clears the guard, or touches the body classes |
| Transition.IgnoredClicks | script.js:155-158 | while transitioning, any number of triggers for any destinations leave the page exactly as it was |
| Transition.NoClickNoNavigation | script.js:116 | a fresh controller that is never triggered stays idle and never navigates |
| Transition.AtMostOneNavigation | script.js:114-247 | over any event sequence: at most one navigation, the guard is set iff some trigger happened, and only the first trigger's destination is ever pending or navigated to |
| Transition.VerdictAtFireTime | script.js:137-147 | trigger, then any further triggers, then the timer: exactly one navigation, to the first destination's page for the verdict given when the timer fires |
| Lifecycle.Bootstrap | script.js:44-58 | after bootstrap neither transition marker nor `home-page-loading` is on the body; every other class is kept and nothing is added |
| Lifecycle.BootstrappedPageIsStable | script.js:93-110 | on a bootstrapped body only a persisted `pageshow` reloads: no visibility change does |
| Lifecycle.InterruptedTransitionReloads | script.js:102-110 | a bootstrapped page whose controller was triggered reloads when it becomes visible, whatever events came after the trigger |
| Lifecycle.IdlePageDoesNotReload | script.js:102-110 | a bootstrapped page never triggered never reloads on a visibility change |
| NavLinks.ButtonClick | script.js:323-331 | a discovered button's click always prevents the default and stops propagation; a busy controller is left as it was; an idle one commits to the button's destination and gains exactly the two markers. The click performs no navigation: it only arms the timer, and firing it adds one navigation to the destination's page for whichever verdict is current then |
| NavLinks.ClassifyNavText | script.js:418-429 | About iff the lower-cased text contains "about"; Work iff it does not but contains both "work" and "credits"; never Photos or Reel; otherwise nothing |
| NavLinks.FallbackClick | script.js:416-431 | the fallback's only effect is one `preventDefault`, issued iff the text names a destination; an unrecognised link or a busy controller leaves the page as it was; an idle one commits to the named destination and gains exactly the two markers. The click performs no navigation: it only arms the timer, and firing it adds one navigation to the named page for whichever verdict is current then |
| NavLinks.FallbackCommitsToNamedPage | script.js:420-429 | on a fresh page a fallback click navigates nowhere by itself; for a recognised link the timer then navigates once, to the named destination's page for the verdict at firing time; for an unrecognised one the page stays fresh and the timer does nothing |
| Contact.HandleContactClick | script.js:553-579 | returns true iff mobile. On desktop it prevents the default and stops propagation. It then issues exactly one clipboard write, of the value unchanged, and returns false. If `navigator.clipboard` is absent it throws instead, with no write. On mobile none of these happen. No other effect is issued, and the suppression comes before the write |
| Contact.PhoneAndEmailAgree | script.js:582-608 | the email handler behaves exactly like the phone handler |
| Contact.ConfirmationRoundTrip | script.js:664 | the copied value is recovered exactly from the confirmation text |
| Contact.CompleteCopy | script.js:568-575 | the confirmation of the value is shown, with one more 2000 ms fade-out armed and earlier ones kept, iff the write succeeded or was rejected and the fallback copied. Otherwise the element is unchanged, including when the clipboard API is absent |
| Contact.FallbackOnlyAfterRejection | script.js:571-575 | after a successful clipboard write the fallback's outcome plays no part |
| Contact.MissingClipboardSkipsFallback | script.js:568-575 | as written: without `navigator.clipboard` a desktop click throws, and no confirmation appears even when the fallback would have copied |
| Contact.CompleteCopyGuarded | script.js:571-575 | corrected: a missing clipboard API is handled like a rejection, so the confirmation appears iff the write succeeded or the fallback copied; in every other case it agrees with the code |
| Contact.DesktopCopyConfirmsWrittenValue | script.js:562-570 | on desktop the value the confirmation shows is the text of the click's own clipboard write effect, which is the link's value |
| Notify.KindStyle | script.js:794-810 | an unknown kind keeps the default icon and neutral border; a known kind changes both |
| Notify.KnownStylesDistinct | script.js:797-810 | `success`, `error` and `info` have pairwise different icons and pairwise different borders |
| Notify.Compose | script.js:812-813 | the text is the kind's icon, one space, then the message; the border is the kind's |
| Notify.ComposeRoundTrip | script.js:813 | the message is recovered exactly from the displayed text |
| Notify.EarlierTimerHidesNewerMessage | script.js:817-821 | as written: show a, show b, then the first timer fires; b is displayed but hidden while its own timer is still pending |
| Notify.NewestHideAlwaysGoverns | script.js:817-821 | with the pending hide cancelled on each show, the element is visible exactly while the newest show's own timer is pending; the latest call's text is displayed; the delay never changes |
| Notify.ShowDownloadNotification | script.js:764-821 | the download element becomes visible with the kind's border and the message recoverable from its text. A missing kind means `info`. One more 4000 ms fade-out is armed and earlier ones stay armed |
| Resume.OutcomeKind | script.js:720-760 | every probe outcome leads to one of the three recognised notification kinds |
| Resume.DownloadResume | script.js:707-760 | prevents the default iff an event was passed; exactly one HEAD probe; exactly one notification, last, of kind success (ok status), error (other status) or info (probe rejected); exactly one download of the resume under its suggested name unless the status is not ok, in which case none. The effects come in order: `preventDefault` and `stopPropagation` (both iff an event was passed), then the probe, then the probe's continuation. Nothing else is issued, and no download comes before the probe |
| Resume.DownloadUnlessError | script.js:720-760 | a download is synthesised iff the notification is not an error |
| Resume.OutcomesLookDifferent | script.js:738-759 | probe outcomes of different kinds are shown with different styles |

## Findings

| source | as written | input that shows it | evidently intended | confidence | as-written member | corrected member |
|---|---|---|---|---|---|---|
| script.js:817-821 | every call schedules its own fade-out and none is cancelled, so an earlier call's timer fades out a later message | two calls within 4 s: the first call's timer hides the second message while the second's timer is still pending | each message stays visible for its full delay, as the comment "Hide after 4 seconds" says | medium, not executed | Notify.EarlierTimerHidesNewerMessage | Notify.NewestHideAlwaysGoverns |
| script.js:568-575 | `navigator.clipboard.writeText` is called with no check that `navigator.clipboard` exists; the fallback is attached only to a rejected promise | a desktop browser without the async clipboard API (an older browser, or a page served over plain HTTP): the call throws a TypeError and nothing is copied | the fallback "for older browsers" runs whenever the asynchronous write does not succeed | medium, not executed | Contact.MissingClipboardSkipsFallback | Contact.CompleteCopyGuarded |

The copy confirmation (script.js:667-670, 2000 ms, "Hide after 2 seconds") has the same
timer pattern as the first row. `ShowDownloadNotification` and `CompleteCopy` model the code as
written, through `ShowAsWritten`. The corrected `Show`, which cancels the pending hide first,
is the definition `NewestHideAlwaysGoverns` proves the intended property about. The email
handler (script.js:597-604) has the same clipboard pattern as the phone handler;
`HandleContactClick` models both.

## Left out

- DOM construction, inline CSS, the fade-in overlay, the marquee and headshot style resets and
  the marquee existence check (script.js:5-15, 27-43, 46-54, 60-80) are presentation only.
  Bootstrap is modelled only as its effect on the body class list (script.js:44, 58).
- Real time is not modelled. The transition timer is a pending slot. Fade-out timers are
  pending hide events that fire in scheduling order, because one element always uses the same
  delay. The 100 ms settle delays are not modelled.
- `location.reload`, the `window.location.href` assignment, `navigator.clipboard`, the
  `execCommand` textarea, and `fetch` are browser APIs. They appear as decisions, recorded
  navigations, effects, or outcome parameters (`ClipboardOutcome`, `FallbackOutcome`,
  `ProbeResult`).
- Button discovery is not modelled: the `querySelector` loop over selectors (script.js:262-304),
  the `getBoundingClientRect` diagnostics, and the wiring in `initializeContactHandlers`. The
  second and third selectors in that loop run the same lower-cased text search for "about".
  The fallback handler is installed only when that search finds no `<a>` whose text contains
  "about" (script.js:286-289). So the fallback's About branch (script.js:421-424) can fire only
  for a `.nav-link` that is not an `<a>`. `NavLinks.FallbackCommitsToNamedPage` states the
  branch for any text, without that precondition.
- Logging, the mouseenter/mouseleave debug handlers, and the `navigateTo…` wrappers
  (script.js:447-517) are left out: the wrappers only delegate to the controller.
  `toggleContactCard` (script.js:520-550) is not part of this model.
- Text.Lower: lower-cases ASCII letters only, whereas `toLowerCase` applies full Unicode case
  mapping. Some non-ASCII characters lower-case into ASCII letters: U+212A KELVIN SIGN becomes
  `k` and can complete "blackberry", and U+0130 becomes `i` followed by a combining dot. An
  agent or link text that spells a keyword with such characters matches in the browser but not
  in the model.
- NavLinks.ClassifyNavText: the text is not trimmed first (script.js:418). No keyword contains
  whitespace, so trimming cannot change any of the `includes` answers.
- Characters are Unicode scalar values, not UTF-16 code units. This matters only for the
  lengths of the emoji icons, which the model never compares with the browser's.
- The `transform` slide of the download notification (script.js:815, 820) is presentation and
  is not modelled. Opacity is modelled as `visible`.

=== FILE: browser.dfy ===
/** The observable effects the page script asks of the browser, recorded in the order the
    script issues them. Logging is not an effect here. */
module Browser {

  datatype Effect =
    | PreventDefault
    | StopPropagation
    | ClipboardWrite(text: string)
    | HeadProbe(path: string)
    | SynthesizeDownload(href: string, filename: string)
    | ShowNotification(message: string, kind: string)

  /** How many effects in `es` satisfy `p`. */
  function Count(es: seq<Effect>, p: Effect -> bool): nat
  {
    if es == [] then 0 else (if p(es[0]) then 1 else 0) + Count(es[1..], p)
  }

  /** Counting distributes over concatenation of effect logs. */
  lemma {:induction false} CountAppend(a: seq<Effect>, b: seq<Effect>, p: Effect -> bool)
    ensures Count(a + b, p) == Count(a, p) + Count(b, p)
  {
    if a == [] {
      assert a + b == b;
    } else {
      assert (a + b)[1..] == a[1..] + b;
      CountAppend(a[1..], b, p);
    }
  }

  /** No effect counted means no effect of that shape is present, and conversely. */
  lemma {:induction false} CountZero(es: seq<Effect>, p: Effect -> bool)
    ensures Count(es, p) == 0 <==> forall i :: 0 <= i < |es| ==> !p(es[i])
  {
    if es != [] {
      CountZero(es[1..], p);
      assert forall i :: 1 <= i < |es| ==> es[i] == es[1..][i - 1];
    }
  }

  predicate IsClipboardWrite(e: Effect) { e.ClipboardWrite? }
  predicate IsDownload(e: Effect) { e.SynthesizeDownload? }
  predicate IsNotification(e: Effect) { e.ShowNotification? }
  predicate IsProbe(e: Effect) { e.HeadProbe? }
}

=== FILE: contact.dfy ===
/** The contact handlers of script.js: `handlePhoneClick` and `handleEmailClick` decide
    between the device's own tel:/mailto: handling and a clipboard copy, and the copy's
    completion (including the legacy fallback) ends in the copy confirmation. */
module Contact {
  import opened Wrappers
  import opened Browser
  import opened Notify

  datatype ContactKind = Phone | Email

  /** What a click handler returns (`None` when it throws instead of returning), and the
      effects it issues on the way. */
  datatype ClickOutcome = ClickOutcome(returned: Option<bool>, effects: seq<Effect>)

  /** Both handlers: on mobile let the link's default action run; on desktop suppress it and
      request one clipboard write of the value. Where `navigator.clipboard` is absent
      (`clipboardPresent` false), calling `writeText` on it throws a TypeError right after
      the suppression, so nothing is written and the handler never returns. The kind only
      changes what is logged. */
  function HandleContactClick(kind: ContactKind, value: string, mobile: bool, clipboardPresent: bool): (r: ClickOutcome)
    ensures r.returned == Some(true) <==> mobile
    ensures r.returned == Some(false) <==> !mobile && clipboardPresent
    ensures r.returned == None <==> !mobile && !clipboardPresent
    ensures PreventDefault in r.effects <==> !mobile
    ensures StopPropagation in r.effects <==> !mobile
    ensures Count(r.effects, IsClipboardWrite) == (if !mobile && clipboardPresent then 1 else 0)
    ensures forall i :: 0 <= i < |r.effects| && r.effects[i].ClipboardWrite? ==> r.effects[i].text == value
    ensures |r.effects| == (if mobile then 0 else if clipboardPresent then 3 else 2)
    ensures !mobile ==> r.effects[..2] == [PreventDefault, StopPropagation]
  {
    if mobile then ClickOutcome(Some(true), [])
    else if !clipboardPresent then
      var es := [PreventDefault, StopPropagation];
      CountZero(es, IsClipboardWrite);
      ClickOutcome(None, es)
    else
      var es := [PreventDefault, StopPropagation, ClipboardWrite(value)];
      assert es[1..][1..][1..] == [];
      assert Count(es[2..], IsClipboardWrite) == 1;
      assert Count(es[1..], IsClipboardWrite) == 1;
      ClickOutcome(Some(false), es)
  }

  /** Phone and email links behave identically for the same value and signals. */
  lemma PhoneAndEmailAgree(value: string, mobile: bool, clipboardPresent: bool)
    ensures HandleContactClick(Phone, value, mobile, clipboardPresent)
         == HandleContactClick(Email, value, mobile, clipboardPresent)
  {
  }

  /** How the `navigator.clipboard.writeText` call ended: its promise resolved, its promise
      was rejected, or `navigator.clipboard` was absent and the call threw. */
  datatype ClipboardOutcome = Written | Rejected | Unavailable

  /** How the legacy `execCommand('copy')` fallback would end if it ran. */
  datatype FallbackOutcome = Copied | CommandFailed | CommandThrew

  const CopiedPrefix: string := "\U{1F4CB} Copied: "

  /** `showCopyConfirmation`'s notice; its border is fixed at creation. */
  function Confirmation(value: string): Notice
  {
    Notice(CopiedPrefix + value, DefaultBorder)
  }

  /** The copied value, read back from a confirmation notice. */
  function CopiedValue(n: Notice): Option<string>
  {
    if |CopiedPrefix| <= |n.text| && n.text[..|CopiedPrefix|] == CopiedPrefix
    then Some(n.text[|CopiedPrefix|..]) else None
  }

  lemma ConfirmationRoundTrip(value: string)
    ensures CopiedValue(Confirmation(value)) == Some(value)
  {
  }

  /** The copy's completion on the confirmation element, as written. The confirmation
      appears when the clipboard write succeeds, or when it is rejected and the fallback
      copies. Each confirmation arms one more 2000 ms fade-out and leaves earlier ones armed.
      Otherwise the element is left as it was. The fallback is attached only to a rejected
      promise, so without `navigator.clipboard` it never runs. */
  function CompleteCopy(o: Overlay, value: string, clip: ClipboardOutcome, fallback: FallbackOutcome): (r: Overlay)
    requires o.hideDelayMs == CopyHideDelayMs
    ensures r.hideDelayMs == CopyHideDelayMs
    ensures (clip == Written || (clip == Rejected && fallback == Copied)) ==>
      && r.visible && r.content.Some? && CopiedValue(r.content.value) == Some(value)
      && r.pendingHides != [] && r.pendingHides[|r.pendingHides| - 1] == o.shows
      && r.pendingHides[..|r.pendingHides| - 1] == o.pendingHides
    ensures (clip == Unavailable || (clip == Rejected && fallback != Copied)) ==> r == o
  {
    ConfirmationRoundTrip(value);
    match clip
    case Written => ShowAsWritten(o, Confirmation(value))
    case Rejected => if fallback == Copied then ShowAsWritten(o, Confirmation(value)) else o
    case Unavailable => o
  }

  /** Once the clipboard write succeeds the fallback never runs, so its outcome is irrelevant. */
  lemma FallbackOnlyAfterRejection(o: Overlay, value: string, f1: FallbackOutcome, f2: FallbackOutcome)
    requires o.hideDelayMs == CopyHideDelayMs
    ensures CompleteCopy(o, value, Written, f1) == CompleteCopy(o, value, Written, f2)
  {
  }

  /** As written, a desktop browser without `navigator.clipboard` (an older browser, or an
      insecure context) gets no copy at all: the click throws before returning, and the
      legacy fallback, which would have copied, never runs. */
  lemma MissingClipboardSkipsFallback(kind: ContactKind, value: string, o: Overlay)
    requires o.hideDelayMs == CopyHideDelayMs
    ensures HandleContactClick(kind, value, false, false).returned == None
    ensures CompleteCopy(o, value, Unavailable, Copied) == o
  {
  }

  /** The corrected completion: a missing clipboard API is handled like a rejected write, so
      the legacy fallback runs wherever the asynchronous write did not succeed. */
  function CompleteCopyGuarded(o: Overlay, value: string, clip: ClipboardOutcome, fallback: FallbackOutcome): (r: Overlay)
    requires o.hideDelayMs == CopyHideDelayMs
    ensures r.hideDelayMs == CopyHideDelayMs
    ensures (clip == Written || fallback == Copied) ==>
      && r.visible && r.content.Some? && CopiedValue(r.content.value) == Some(value)
      && r.pendingHides != [] && r.pendingHides[|r.pendingHides| - 1] == o.shows
    ensures clip != Written && fallback != Copied ==> r == o
    ensures clip != Unavailable ==> r == CompleteCopy(o, value, clip, fallback)
  {
    CompleteCopy(o, value, if clip == Unavailable then Rejected else clip, fallback)
  }

  /** On desktop, the value the copy confirms is the one carried by the click's own
      clipboard write effect, and it is the link's value. */
  lemma {:induction false} DesktopCopyConfirmsWrittenValue(kind: ContactKind, value: string, o: Overlay, f: FallbackOutcome)
    requires o.hideDelayMs == CopyHideDelayMs
    ensures var r := HandleContactClick(kind, value, false, true);
      exists i :: 0 <= i < |r.effects| && r.effects[i].ClipboardWrite?
    ensures var r := HandleContactClick(kind, value, false, true);
      forall i :: 0 <= i < |r.effects| && r.effects[i].ClipboardWrite? ==>
        CopiedValue(CompleteCopy(o, r.effects[i].text, Written, f).content.value) == Some(value)
  {
    var r := HandleContactClick(kind, value, false, true);
    assert r.effects[2].ClipboardWrite?;
  }
}

=== FILE: device.dfy ===
/** The device classifier of script.js: mobile versus desktop from the user-agent string,
    the viewport width and the touch signals. */
module Device {
  import opened Text

  /** The keywords searched for in the lower-cased user agent, in source order. */
  const MobileKeywords: seq<string> := ["mobile", "android", "iphone", "ipad", "blackberry", "webos"]

  /** The widest viewport, in CSS pixels, that counts as a small screen. */
  const SmallScreenMaxWidth: int := 768

  /** The ambient browser signals the classifier reads. */
  datatype Signals = Signals(
    userAgent: string,      // navigator.userAgent, as reported
    innerWidth: int,        // window.innerWidth
    hasTouchStart: bool,    // 'ontouchstart' in window
    maxTouchPoints: int     // navigator.maxTouchPoints
  )

  predicate IsTouchDevice(sig: Signals)
  {
    sig.hasTouchStart || sig.maxTouchPoints > 0
  }

  /** `isMobileDevice`: a mobile keyword in the user agent, or a small touch screen. */
  function IsMobileDevice(sig: Signals): (mobile: bool)
    ensures mobile <==>
      (exists k :: k in MobileKeywords && Contains(Lower(sig.userAgent), k))
      || (sig.innerWidth <= SmallScreenMaxWidth && IsTouchDevice(sig))
  {
    var ua := Lower(sig.userAgent);
    IncludesAnyCorrect(ua, MobileKeywords);
    IncludesAny(ua, MobileKeywords) || (sig.innerWidth <= SmallScreenMaxWidth && IsTouchDevice(sig))
  }

  /** The verdict does not depend on the case of the user agent. */
  lemma VerdictIgnoresCase(sig: Signals)
    ensures IsMobileDevice(sig.(userAgent := Lower(sig.userAgent))) == IsMobileDevice(sig)
  {
    LowerIdempotent(sig.userAgent);
  }

  /** With no keyword in the user agent, a touch screen is mobile exactly up to width 768:
      768 itself is small, and touch alone on a wider screen is desktop. */
  lemma {:induction false} WidthThreshold(sig: Signals)
    requires forall k :: k in MobileKeywords ==> !Includes(Lower(sig.userAgent), k)
    requires IsTouchDevice(sig)
    ensures IsMobileDevice(sig) <==> sig.innerWidth <= 768
  {
    forall k | k in MobileKeywords
      ensures !Contains(Lower(sig.userAgent), k)
    {
      IncludesCorrect(Lower(sig.userAgent), k);
    }
  }

  /** A user agent naming an "iPhone", in that capitalisation, is mobile whatever the
      viewport and touch signals say: the search runs on the lower-cased agent. */
  lemma IphoneIsMobile(sig: Signals)
    requires Contains(sig.userAgent, "iPhone")
    ensures IsMobileDevice(sig)
  {
    var i :| OccursAt(sig.userAgent, "iPhone", i);
    var ua := Lower(sig.userAgent);
    forall j | 0 <= j < 6
      ensures ua[i + j] == "iphone"[j]
    {
      assert sig.userAgent[i + j] == "iPhone"[j];
    }
    assert ua[i..i + 6] == "iphone";
    assert OccursAt(ua, "iphone", i);
    assert "iphone" in MobileKeywords;
  }
}

=== FILE: lifecycle.dfy ===
/** Page bootstrap and the two page-lifecycle listeners of script.js. Bootstrap strips the
    loading marker and both transition markers. A page restored from the back/forward cache
    always reloads. A page that becomes visible while a transition marker is still on the
    body reloads too. */
module Lifecycle {
  import opened Wrappers
  import opened Transition

  const HomePageLoading: string := "home-page-loading"

  /** The body classes bootstrap removes. */
  const ResetClasses: set<string> := {HomePageLoading, PageTransitionActive, ParallaxSlideOut}

  /** A transition marker survives on the body. */
  predicate HasStaleMarker(body: set<string>)
  {
    PageTransitionActive in body || ParallaxSlideOut in body
  }

  /** The class-list part of the DOMContentLoaded handler: the loading marker, then both
      transition markers, are removed; every other class is kept. */
  function Bootstrap(body: set<string>): (clean: set<string>)
    ensures !HasStaleMarker(clean) && HomePageLoading !in clean
    ensures forall c :: c !in ResetClasses ==> (c in clean <==> c in body)
    ensures clean <= body
  {
    (body - {HomePageLoading}) - {PageTransitionActive, ParallaxSlideOut}
  }

  datatype LifecycleEvent = PageShow(persisted: bool) | VisibilityChange(hidden: bool)

  /** Whether the listener for `e` calls `location.reload()`, given the body classes. */
  predicate ShouldReload(e: LifecycleEvent, body: set<string>)
  {
    match e
    case PageShow(persisted) => persisted
    case VisibilityChange(hidden) => !hidden && HasStaleMarker(body)
  }

  /** Bootstrap makes any body safe to show: no visibility change on it reloads, and a
      page show reloads only when the page came from the cache. */
  lemma BootstrappedPageIsStable(body: set<string>, e: LifecycleEvent)
    ensures ShouldReload(e, Bootstrap(body)) <==> e == PageShow(true)
  {
  }

  /** A page whose controller was ever clicked and that is shown again (for instance from a
      half-finished transition) reloads on becoming visible, whatever happened since. */
  lemma {:induction false} InterruptedTransitionReloads(body: set<string>, es: seq<Event>)
    requires FirstClick(es).Some?
    ensures ShouldReload(VisibilityChange(false), Run(Fresh(Bootstrap(body)), es).body)
  {
    AtMostOneNavigation(Bootstrap(body), es);
  }

  /** Without a click nothing marks the bootstrapped body, so becoming visible never reloads. */
  lemma {:induction false} IdlePageDoesNotReload(body: set<string>, es: seq<Event>, hidden: bool)
    requires FirstClick(es) == None
    ensures !ShouldReload(VisibilityChange(hidden), Run(Fresh(Bootstrap(body)), es).body)
  {
    NoClickNoNavigation(Bootstrap(body), es);
  }
}

=== FILE: navlinks.dfy ===
/** The navigation click handlers of script.js: the handler on a discovered button, and the
    last-resort handler on every `.nav-link`, which infers the destination from the text. */
module NavLinks {
  import opened Wrappers
  import opened Text
  import opened Browser
  import opened Transition

  /** What a click handler leaves behind: the effects on the event and the page after it. */
  datatype ClickResult = ClickResult(effects: seq<Effect>, page: Page)

  /** A click on the About, Work & Credits, Photos or Reel button found at bootstrap: the
      link's default and propagation are always suppressed; a busy controller ignores the
      click, and an idle one commits to the button's destination and marks the body. */
  function ButtonClick(p: Page, d: Dest): (r: ClickResult)
    ensures r.effects == [PreventDefault, StopPropagation]
    ensures p.isTransitioning ==> r.page == p
    ensures !p.isTransitioning && p.navigations == [] ==>
      CommittedTo(r.page, d) && r.page.body == p.body + {PageTransitionActive, ParallaxSlideOut}
    ensures !p.isTransitioning ==>
      && r.page.pending == Some(d)
      && r.page.navigations == p.navigations
      && Fire(r.page, true).navigations == p.navigations + [TargetUrl(d, true)]
      && Fire(r.page, false).navigations == p.navigations + [TargetUrl(d, false)]
  {
    ClickResult([PreventDefault, StopPropagation], Trigger(p, d))
  }

  /** The fallback's reading of a link's text: "about" anywhere wins; otherwise the text must
      mention both "work" and "credits"; anything else names no destination. */
  function ClassifyNavText(text: string): (r: Option<Dest>)
    ensures r == Some(About) <==> Contains(Lower(text), "about")
    ensures r == Some(Work) <==>
      !Contains(Lower(text), "about") && Contains(Lower(text), "work") && Contains(Lower(text), "credits")
    ensures r != Some(Photos) && r != Some(Reel)
  {
    var t := Lower(text);
    IncludesCorrect(t, "about");
    IncludesCorrect(t, "work");
    IncludesCorrect(t, "credits");
    if Includes(t, "about") then Some(About)
    else if Includes(t, "work") && Includes(t, "credits") then Some(Work)
    else None
  }

  /** A click on a `.nav-link` under the fallback handler. Only a recognised link has its
      default action prevented, and propagation is never stopped. */
  function FallbackClick(p: Page, text: string): (r: ClickResult)
    ensures r.effects == (if ClassifyNavText(text).Some? then [PreventDefault] else [])
    ensures ClassifyNavText(text).None? ==> r.page == p
    ensures p.isTransitioning ==> r.page == p
    ensures ClassifyNavText(text).Some? && !p.isTransitioning && p.navigations == [] ==>
      CommittedTo(r.page, ClassifyNavText(text).value)
      && r.page.body == p.body + {PageTransitionActive, ParallaxSlideOut}
    ensures ClassifyNavText(text).Some? && !p.isTransitioning ==>
      && r.page.pending == Some(ClassifyNavText(text).value)
      && r.page.navigations == p.navigations
      && Fire(r.page, true).navigations == p.navigations + [TargetUrl(ClassifyNavText(text).value, true)]
      && Fire(r.page, false).navigations == p.navigations + [TargetUrl(ClassifyNavText(text).value, false)]
  {
    match ClassifyNavText(text)
    case Some(d) => ClickResult([PreventDefault], Trigger(p, d))
    case None => ClickResult([], p)
  }

  /** Under the fallback, a recognised link on a fresh page navigates nowhere until the timer
      fires, and then once, to the named destination's page for the verdict at firing time;
      an unrecognised link leaves the page fresh, so the timer has nothing to fire. */
  lemma FallbackCommitsToNamedPage(body: set<string>, text: string, mobile: bool)
    ensures FallbackClick(Fresh(body), text).page.navigations == []
    ensures ClassifyNavText(text).Some? ==>
      Fire(FallbackClick(Fresh(body), text).page, mobile).navigations
        == [TargetUrl(ClassifyNavText(text).value, mobile)]
    ensures ClassifyNavText(text).None? ==>
      Fire(FallbackClick(Fresh(body), text).page, mobile) == Fresh(body)
  {
  }
}

=== FILE: notify.dfy ===
/** The notification presenter of script.js: the kind-to-style switch of
    `showDownloadNotification`, the text it displays, and the reused overlay element whose
    fade-out timers are modelled as pending hide events. */
module Notify {
  import opened Wrappers

  const DefaultBorder: string := "rgba(255, 255, 255, 0.2)"
  const SuccessBorder: string := "rgba(0, 255, 0, 0.3)"
  const ErrorBorder: string := "rgba(255, 0, 0, 0.3)"
  const InfoBorder: string := "rgba(255, 215, 0, 0.3)"

  const DefaultIcon: string := "\U{1F4C4}"          // page facing up
  const SuccessIcon: string := "\U{2705}"           // check mark button
  const ErrorIcon: string := "\U{274C}"             // cross mark
  const InfoIcon: string := "\U{2139}\U{FE0F}"      // information source, emoji presentation

  /** The kinds the switch recognises; any other string keeps the defaults. */
  const KnownKinds: set<string> := {"success", "error", "info"}

  /** Fade-out delays: 2 s for the copy confirmation, 4 s for download notifications. */
  const CopyHideDelayMs: nat := 2000
  const DownloadHideDelayMs: nat := 4000

  datatype Style = Style(icon: string, border: string)

  const DefaultStyle: Style := Style(DefaultIcon, DefaultBorder)

  /** The `switch (type)` of `showDownloadNotification`. */
  function KindStyle(kind: string): (s: Style)
    ensures kind !in KnownKinds ==> s == DefaultStyle
    ensures kind in KnownKinds ==> s.icon != DefaultIcon && s.border != DefaultBorder
  {
    match kind
    case "success" => Style(SuccessIcon, SuccessBorder)
    case "error" => Style(ErrorIcon, ErrorBorder)
    case "info" => Style(InfoIcon, InfoBorder)
    case _ => DefaultStyle
  }

  /** The three recognised kinds are told apart by icon and by border colour alike. */
  lemma KnownStylesDistinct(k1: string, k2: string)
    requires k1 in KnownKinds && k2 in KnownKinds && k1 != k2
    ensures KindStyle(k1).icon != KindStyle(k2).icon
    ensures KindStyle(k1).border != KindStyle(k2).border
  {
  }

  /** What an overlay element displays: its text and its border colour. */
  datatype Notice = Notice(text: string, border: string)

  /** The notice for a download message of the given kind: icon, one space, the message. */
  function Compose(message: string, kind: string): (n: Notice)
    ensures n.border == KindStyle(kind).border
    ensures |n.text| == |KindStyle(kind).icon| + 1 + |message|
    ensures n.text[..|KindStyle(kind).icon|] == KindStyle(kind).icon
    ensures n.text[|KindStyle(kind).icon|] == ' '
    ensures n.text[|KindStyle(kind).icon| + 1..] == message
  {
    var style := KindStyle(kind);
    Notice(style.icon + " " + message, style.border)
  }

  /** Reads the message back out of a notice shown for `kind`. */
  function MessageOf(n: Notice, kind: string): Option<string>
  {
    var prefix := KindStyle(kind).icon + " ";
    if |prefix| <= |n.text| && n.text[..|prefix|] == prefix then Some(n.text[|prefix|..]) else None
  }

  /** The displayed text loses nothing: the message is recovered from it exactly. */
  lemma ComposeRoundTrip(message: string, kind: string)
    ensures MessageOf(Compose(message, kind), kind) == Some(message)
  {
  }

  /** A lazily created, reused notification element. `shows` counts the calls so far; each
      pending hide timer is identified by the number of the show that scheduled it, oldest
      first (all timers of one element share one delay, so they fire in that order). */
  datatype Overlay = Overlay(
    content: Option<Notice>,
    visible: bool,
    shows: nat,
    pendingHides: seq<nat>,
    hideDelayMs: nat
  )

  /** The element before its first use, with the fade-out delay it will use. */
  function Unused(hideDelayMs: nat): Overlay
  {
    Overlay(None, false, 0, [], hideDelayMs)
  }

  /** A show as script.js writes it: set the text, fade in, and schedule one more hide,
      leaving the hides of earlier shows armed. The handlers of the model use this one. */
  function ShowAsWritten(o: Overlay, n: Notice): Overlay
  {
    o.(content := Some(n), visible := true, shows := o.shows + 1, pendingHides := o.pendingHides + [o.shows])
  }

  /** The corrected show: it first cancels the element's pending hide, so that only the
      newest message's own timer can fade it out. */
  function Show(o: Overlay, n: Notice): Overlay
  {
    o.(content := Some(n), visible := true, shows := o.shows + 1, pendingHides := [o.shows])
  }

  /** The oldest pending hide timer fires and fades the element out. */
  function HideFires(o: Overlay): Overlay
  {
    if o.pendingHides == [] then o else o.(visible := false, pendingHides := o.pendingHides[1..])
  }

  datatype OverlayEvent = Present(notice: Notice) | HideTimer

  function RunAsWritten(o: Overlay, es: seq<OverlayEvent>): Overlay
    decreases |es|
  {
    if es == [] then o
    else RunAsWritten(match es[0] case Present(n) => ShowAsWritten(o, n) case HideTimer => HideFires(o), es[1..])
  }

  function RunOverlay(o: Overlay, es: seq<OverlayEvent>): Overlay
    decreases |es|
  {
    if es == [] then o
    else RunOverlay(match es[0] case Present(n) => Show(o, n) case HideTimer => HideFires(o), es[1..])
  }

  /** The promise of each show: the element is visible exactly while the newest show's own
      hide timer has not yet fired. */
  ghost predicate NewestHideGoverns(o: Overlay)
  {
    o.visible <==> (o.shows > 0 && o.shows - 1 in o.pendingHides)
  }

  /** As written, a second message shown before the first one's timer fires is faded out
      by that earlier timer, while its own timer is still pending. */
  lemma EarlierTimerHidesNewerMessage(a: Notice, b: Notice, delay: nat)
    ensures var o := RunAsWritten(Unused(delay), [Present(a), Present(b), HideTimer]);
      o.content == Some(b) && !o.visible && o.pendingHides == [1] && !NewestHideGoverns(o)
  {
    var o1 := ShowAsWritten(Unused(delay), a);
    var o2 := ShowAsWritten(o1, b);
    assert o2.pendingHides == [0, 1];
    var es := [Present(a), Present(b), HideTimer];
    assert es[1..] == [Present(b), HideTimer] && es[1..][1..] == [HideTimer];
    assert RunAsWritten(o2, [HideTimer]) == HideFires(o2);
  }

  ghost predicate OverlayInv(o: Overlay)
  {
    && (o.pendingHides == [] || (o.shows > 0 && o.pendingHides == [o.shows - 1]))
    && (o.visible <==> o.pendingHides != [])
  }

  /** With the pending hide cancelled on every show, the newest message always governs its
      own fade-out, the latest call's text is the one displayed, and the delay never changes. */
  lemma {:induction false} NewestHideAlwaysGoverns(o: Overlay, es: seq<OverlayEvent>)
    requires OverlayInv(o)
    ensures OverlayInv(RunOverlay(o, es))
    ensures NewestHideGoverns(RunOverlay(o, es))
    ensures RunOverlay(o, es).hideDelayMs == o.hideDelayMs
    ensures es != [] && es[|es| - 1].Present? ==>
      RunOverlay(o, es).content == Some(es[|es| - 1].notice) && RunOverlay(o, es).visible
    decreases |es|
  {
    if es != [] {
      var o' := match es[0] case Present(n) => Show(o, n) case HideTimer => HideFires(o);
      NewestHideAlwaysGoverns(o', es[1..]);
    }
  }

  /** The kind `showDownloadNotification` uses: its `type` parameter defaults to "info". */
  function KindArgument(kind: Option<string>): string
  {
    match kind
    case None => "info"
    case Some(k) => k
  }

  /** `showDownloadNotification`: compose the notice for the kind and show it on the
      download element, arming one more 4000 ms fade-out and leaving earlier ones armed. */
  function ShowDownloadNotification(o: Overlay, message: string, kind: Option<string>): (r: Overlay)
    requires o.hideDelayMs == DownloadHideDelayMs
    ensures r.visible && r.hideDelayMs == DownloadHideDelayMs
    ensures r.content.Some? && r.content.value.border == KindStyle(KindArgument(kind)).border
    ensures MessageOf(r.content.value, KindArgument(kind)) == Some(message)
    ensures kind == None ==> r.content.value.border == InfoBorder
    ensures r.pendingHides != [] && r.pendingHides[|r.pendingHides| - 1] == o.shows
    ensures r.pendingHides[..|r.pendingHides| - 1] == o.pendingHides
  {
    ComposeRoundTrip(message, KindArgument(kind));
    ShowAsWritten(o, Compose(message, KindArgument(kind)))
  }
}

=== FILE: resume.dfy ===
/** `downloadResume` of script.js: suppress the click, probe the resume with a HEAD request,
    then synthesise a download and report the outcome. A failed probe (network or CORS
    error) still attempts the download and reports it as informational. */
module Resume {
  import opened Browser
  import Notify

  const ResumePath: string := "Ryan B. Gates Actor Resume.pdf"
  const SuggestedFilename: string := "Ryan-B-Gates-Resume.pdf"

  const StartedMessage: string := "Resume download started!"
  const MissingMessage: string := "Resume file not available"
  const AttemptedMessage: string := "Download attempted - please check your downloads folder"

  /** How the HEAD probe settled: a response with an HTTP status, or a rejected promise. */
  datatype ProbeResult = Responded(status: int) | Rejected

  /** `Response.ok` of the Fetch standard: a status in the range 200 to 299. */
  predicate ResponseOk(status: int)
  {
    200 <= status <= 299
  }

  /** The link element the script creates, clicks and removes. */
  const Download: Effect := SynthesizeDownload(ResumePath, SuggestedFilename)

  /** The synchronous part of the handler: suppress the click, if there is one, and probe. */
  function StartDownload(hasEvent: bool): seq<Effect>
  {
    (if hasEvent then [PreventDefault, StopPropagation] else []) + [HeadProbe(ResumePath)]
  }

  /** The probe's continuation. */
  function OnProbe(probe: ProbeResult): seq<Effect>
  {
    match probe
    case Responded(status) =>
      if ResponseOk(status) then [Download, ShowNotification(StartedMessage, "success")]
      else [ShowNotification(MissingMessage, "error")]
    case Rejected => [Download, ShowNotification(AttemptedMessage, "info")]
  }

  /** The notification kind the probe result leads to. */
  function OutcomeKind(probe: ProbeResult): (kind: string)
    ensures kind in Notify.KnownKinds
  {
    match probe
    case Responded(status) => if ResponseOk(status) then "success" else "error"
    case Rejected => "info"
  }

  /** Everything one invocation does, in order. */
  function DownloadResume(hasEvent: bool, probe: ProbeResult): (es: seq<Effect>)
    ensures PreventDefault in es <==> hasEvent
    ensures StopPropagation in es <==> hasEvent
    ensures var k := if hasEvent then 2 else 0;
      && |es| == k + 2 + Count(es, IsDownload)
      && es[k] == HeadProbe(ResumePath)
      && forall i :: 0 <= i <= k ==> !es[i].SynthesizeDownload?
    ensures Count(es, IsDownload) == (if probe.Responded? && !ResponseOk(probe.status) then 0 else 1)
    ensures forall i :: 0 <= i < |es| && es[i].SynthesizeDownload? ==> es[i] == Download
    ensures Count(es, IsNotification) == 1
    ensures es[|es| - 1].ShowNotification? && es[|es| - 1].kind == OutcomeKind(probe)
    ensures Count(es, IsProbe) == 1
  {
    var start := StartDownload(hasEvent);
    var rest := OnProbe(probe);
    CountAppend(start, rest, IsDownload);
    CountAppend(start, rest, IsNotification);
    CountAppend(start, rest, IsProbe);
    CountStart(hasEvent);
    CountOnProbe(probe);
    start + rest
  }

  lemma CountStart(hasEvent: bool)
    ensures Count(StartDownload(hasEvent), IsDownload) == 0
    ensures Count(StartDownload(hasEvent), IsNotification) == 0
    ensures Count(StartDownload(hasEvent), IsProbe) == 1
  {
    var es := StartDownload(hasEvent);
    CountZero(es, IsDownload);
    CountZero(es, IsNotification);
    if hasEvent {
      assert es == [PreventDefault, StopPropagation, HeadProbe(ResumePath)];
      assert es[1..][1..] == [HeadProbe(ResumePath)];
      assert Count(es[1..][1..], IsProbe) == 1;
      assert Count(es[1..], IsProbe) == 1;
    } else {
      assert es == [HeadProbe(ResumePath)];
      assert Count(es[1..], IsProbe) == 0;
    }
  }

  lemma CountOnProbe(probe: ProbeResult)
    ensures Count(OnProbe(probe), IsDownload) == (if probe.Responded? && !ResponseOk(probe.status) then 0 else 1)
    ensures Count(OnProbe(probe), IsNotification) == 1
    ensures Count(OnProbe(probe), IsProbe) == 0
    ensures |OnProbe(probe)| == 1 + Count(OnProbe(probe), IsDownload)
  {
    var es := OnProbe(probe);
    CountZero(es, IsProbe);
    if probe.Responded? && !ResponseOk(probe.status) {
      assert es == [ShowNotification(MissingMessage, "error")];
      assert es[1..] == [];
    } else {
      var n := es[1];
      assert es == [Download, n] && n.ShowNotification?;
      assert es[1..] == [n] && es[1..][1..] == [];
      assert Count(es[1..][1..], IsDownload) == 0 && Count(es[1..][1..], IsNotification) == 0;
      assert Count(es[1..], IsDownload) == 0 && Count(es[1..], IsNotification) == 1;
    }
  }

  /** A download is synthesised exactly when the user is not told the file is missing. */
  lemma DownloadUnlessError(hasEvent: bool, probe: ProbeResult)
    ensures Count(DownloadResume(hasEvent, probe), IsDownload) == 1 <==> OutcomeKind(probe) != "error"
    ensures Count(DownloadResume(hasEvent, probe), IsDownload) == 0 <==> OutcomeKind(probe) == "error"
  {
  }

  /** The three outcomes are told apart on screen: each shows its own icon and border. */
  lemma OutcomesLookDifferent(p1: ProbeResult, p2: ProbeResult)
    requires OutcomeKind(p1) != OutcomeKind(p2)
    ensures Notify.KindStyle(OutcomeKind(p1)) != Notify.KindStyle(OutcomeKind(p2))
  {
  }
}

=== FILE: text.dfy ===
/** String helpers the page script relies on: ASCII lower-casing and substring search
    (JavaScript's `toLowerCase` and `includes`), each with an independent specification. */
module Text {

  /** The ASCII part of `String.prototype.toLowerCase` for one character. */
  function LowerChar(c: char): char
  {
    if 'A' <= c <= 'Z' then (c as int + 32) as char else c
  }

  predicate IsUpper(c: char)
  {
    'A' <= c <= 'Z'
  }

  /** Lower-cases every character of `s`, leaving non-letters untouched. */
  function Lower(s: string): (r: string)
    ensures |r| == |s|
    ensures forall i :: 0 <= i < |s| ==> r[i] == LowerChar(s[i])
    ensures forall i :: 0 <= i < |r| ==> !IsUpper(r[i])
  {
    if s == [] then [] else [LowerChar(s[0])] + Lower(s[1..])
  }

  /** Lower-casing twice is lower-casing once. */
  lemma LowerIdempotent(s: string)
    ensures Lower(Lower(s)) == Lower(s)
  {
  }

  /** `sub` occurs in `s` starting at index `i`. */
  ghost predicate OccursAt(s: string, sub: string, i: int)
  {
    0 <= i && i + |sub| <= |s| && s[i..i + |sub|] == sub
  }

  /** The specification of substring search: some position holds an occurrence. */
  ghost predicate Contains(s: string, sub: string)
  {
    exists i :: OccursAt(s, sub, i)
  }

  /** JavaScript's `s.includes(sub)`: scan the positions of `s` from the left. */
  function Includes(s: string, sub: string): bool
    decreases |s|
  {
    if |sub| > |s| then false
    else if s[..|sub|] == sub then true
    else Includes(s[1..], sub)
  }

  /** The scan finds an occurrence exactly when one exists. */
  lemma {:induction false} IncludesCorrect(s: string, sub: string)
    ensures Includes(s, sub) <==> Contains(s, sub)
    decreases |s|
  {
    if |sub| > |s| {
      assert !Contains(s, sub);
    } else if s[..|sub|] == sub {
      assert OccursAt(s, sub, 0);
    } else {
      IncludesCorrect(s[1..], sub);
      if Contains(s[1..], sub) {
        var i :| OccursAt(s[1..], sub, i);
        forall j | 0 <= j < |sub|
          ensures s[i + 1 + j] == sub[j]
        {
          assert s[1..][i..i + |sub|][j] == sub[j];
        }
        assert s[i + 1..i + 1 + |sub|] == sub;
        assert OccursAt(s, sub, i + 1);
      }
      if Contains(s, sub) {
        var i :| OccursAt(s, sub, i);
        assert i != 0;
        assert s[1..][i - 1..i - 1 + |sub|] == s[i..i + |sub|];
        assert OccursAt(s[1..], sub, i - 1);
      }
    }
  }

  /** Some element of `subs` is included in `s`: JavaScript's `subs.some(k => s.includes(k))`. */
  function IncludesAny(s: string, subs: seq<string>): bool
  {
    |subs| > 0 && (Includes(s, subs[0]) || IncludesAny(s, subs[1..]))
  }

  lemma {:induction false} IncludesAnyCorrect(s: string, subs: seq<string>)
    ensures IncludesAny(s, subs) <==> exists k :: k in subs && Contains(s, k)
  {
    if |subs| > 0 {
      IncludesCorrect(s, subs[0]);
      IncludesAnyCorrect(s, subs[1..]);
      if exists k :: k in subs && Contains(s, k) {
        var k :| k in subs && Contains(s, k);
        if k != subs[0] {
          assert k in subs[1..];
        }
      }
    }
  }
}

=== FILE: transition.dfy ===
/** The parallax transition controller of script.js. A one-shot guard (`isTransitioning`)
    admits the first trigger, marks the body with the two transition classes and arms a
    single pending navigation. The navigation fires later with the device verdict current
    at that moment. The flag is never cleared. */
module Transition {
  import opened Wrappers

  /** The four destinations, whose copy-pasted methods differ only in a path segment. */
  datatype Dest = About | Work | Photos | Reel

  const PageTransitionActive: string := "page-transition-active"
  const ParallaxSlideOut: string := "parallax-slide-out"

  /** The path segment naming a destination. */
  function Segment(d: Dest): string
  {
    match d
    case About => "about"
    case Work => "work"
    case Photos => "photos"
    case Reel => "reel"
  }

  /** The page the timer navigates to: `d/d-mobile.html` or `d/d-desktop.html`. */
  function TargetUrl(d: Dest, mobile: bool): string
  {
    Segment(d) + "/" + Segment(d) + (if mobile then "-mobile.html" else "-desktop.html")
  }

  /** Distinct destinations or verdicts always lead to distinct pages. */
  lemma TargetUrlInjective(d1: Dest, m1: bool, d2: Dest, m2: bool)
    ensures TargetUrl(d1, m1) == TargetUrl(d2, m2) ==> d1 == d2 && m1 == m2
  {
    if TargetUrl(d1, m1) == TargetUrl(d2, m2) {
      var u := TargetUrl(d1, m1);
      assert u[0] == Segment(d1)[0] && u[0] == Segment(d2)[0];
      assert |u| == 2 * |Segment(d1)| + 1 + (if m1 then 12 else 13);
      assert |u| == 2 * |Segment(d2)| + 1 + (if m2 then 12 else 13);
    }
  }

  /** The page as the controller sees it: the body's class list, the guard flag, the pending
      timer slot and the navigations performed so far. */
  datatype Page = Page(
    body: set<string>,
    isTransitioning: bool,
    pending: Option<Dest>,
    navigations: seq<string>
  )

  /** A freshly constructed controller on a page with the given body classes. */
  function Fresh(body: set<string>): Page
  {
    Page(body, false, None, [])
  }

  /** Any of the four `transitionTo…` methods. */
  function Trigger(p: Page, d: Dest): Page
  {
    if p.isTransitioning then p
    else p.(isTransitioning := true,
            body := p.body + {PageTransitionActive, ParallaxSlideOut},
            pending := Some(d))
  }

  /** The 600 ms timer fires; `mobile` is the classifier's verdict at that moment. */
  function Fire(p: Page, mobile: bool): Page
  {
    match p.pending
    case None => p
    case Some(d) => p.(pending := None, navigations := p.navigations + [TargetUrl(d, mobile)])
  }

  datatype Event = Click(dest: Dest) | TimerFires(mobile: bool)

  function Step(p: Page, e: Event): Page
  {
    match e
    case Click(d) => Trigger(p, d)
    case TimerFires(m) => Fire(p, m)
  }

  /** The page after a sequence of events, oldest first. */
  function Run(p: Page, es: seq<Event>): Page
    decreases |es|
  {
    if es == [] then p else Run(Step(p, es[0]), es[1..])
  }

  /** The destination of the first click in `es`, if any. */
  function FirstClick(es: seq<Event>): Option<Dest>
  {
    if es == [] then None
    else if es[0].Click? then Some(es[0].dest)
    else FirstClick(es[1..])
  }

  /** The controller is committed to `d`: either its navigation to `d` is pending or it has
      navigated to `d`'s page exactly once; both markers stay on the body. */
  ghost predicate CommittedTo(p: Page, d: Dest)
  {
    && p.isTransitioning
    && PageTransitionActive in p.body
    && ParallaxSlideOut in p.body
    && (|| (p.pending == Some(d) && p.navigations == [])
        || (p.pending == None && |p.navigations| == 1
            && (p.navigations[0] == TargetUrl(d, true) || p.navigations[0] == TargetUrl(d, false))))
  }

  /** The first trigger on an idle controller commits it to that destination: the navigation
      is armed, not performed. */
  lemma FirstTriggerCommits(body: set<string>, d: Dest)
    ensures CommittedTo(Trigger(Fresh(body), d), d)
    ensures Trigger(Fresh(body), d).pending == Some(d) && Trigger(Fresh(body), d).navigations == []
    ensures Trigger(Fresh(body), d).body == body + {PageTransitionActive, ParallaxSlideOut}
  {
  }

  /** Once committed, no event changes the destination, clears the guard or removes a
      marker, and the body is otherwise left as it is. */
  lemma {:induction false} CommittedIsForever(p: Page, d: Dest, es: seq<Event>)
    requires CommittedTo(p, d)
    ensures CommittedTo(Run(p, es), d)
    ensures Run(p, es).body == p.body
    decreases |es|
  {
    if es != [] {
      CommittedIsForever(Step(p, es[0]), d, es[1..]);
    }
  }

  /** Before any click the controller stays idle: timers have nothing to fire. */
  lemma {:induction false} NoClickNoNavigation(body: set<string>, es: seq<Event>)
    requires FirstClick(es) == None
    ensures Run(Fresh(body), es) == Fresh(body)
    decreases |es|
  {
    if es != [] {
      NoClickNoNavigation(body, es[1..]);
    }
  }

  /** Over any sequence of events the first clicked destination is the only one ever
      scheduled, at most one navigation happens, and it goes to that destination's page. */
  lemma {:induction false} AtMostOneNavigation(body: set<string>, es: seq<Event>)
    ensures |Run(Fresh(body), es).navigations| <= 1
    ensures FirstClick(es) == None ==> !Run(Fresh(body), es).isTransitioning
    ensures FirstClick(es).Some? ==> CommittedTo(Run(Fresh(body), es), FirstClick(es).value)
    decreases |es|
  {
    if es != [] {
      match es[0]
      case TimerFires(m) =>
        assert Step(Fresh(body), es[0]) == Fresh(body);
        AtMostOneNavigation(body, es[1..]);
      case Click(d) =>
        FirstTriggerCommits(body, d);
        CommittedIsForever(Trigger(Fresh(body), d), d, es[1..]);
    }
  }

  /** The verdict is read when the timer fires: after a click, any further clicks (on any
      destination) followed by the timer navigate once, to the first destination's page for
      the verdict given at firing time. */
  lemma {:induction false} VerdictAtFireTime(body: set<string>, d: Dest, clicks: seq<Event>, mobile: bool)
    requires forall i :: 0 <= i < |clicks| ==> clicks[i].Click?
    ensures Run(Fresh(body), [Click(d)] + clicks + [TimerFires(mobile)]).navigations == [TargetUrl(d, mobile)]
  {
    var p := Trigger(Fresh(body), d);
    IgnoredClicks(p, clicks);
    RunAppend(Fresh(body), [Click(d)], clicks);
    RunAppend(Fresh(body), [Click(d)] + clicks, [TimerFires(mobile)]);
  }

  /** While transitioning, clicks change nothing. */
  lemma {:induction false} IgnoredClicks(p: Page, clicks: seq<Event>)
    requires p.isTransitioning
    requires forall i :: 0 <= i < |clicks| ==> clicks[i].Click?
    ensures Run(p, clicks) == p
    decreases |clicks|
  {
    if clicks != [] {
      IgnoredClicks(p, clicks[1..]);
    }
  }

  lemma {:induction false} RunAppend(p: Page, a: seq<Event>, b: seq<Event>)
    ensures Run(p, a + b) == Run(Run(p, a), b)
    decreases |a|
  {
    if a == [] {
      assert a + b == b;
    } else {
      assert (a + b)[0] == a[0];
      assert (a + b)[1..] == a[1..] + b;
      RunAppend(Step(p, a[0]), a[1..], b);
    }
  }
}

=== FILE: wrappers.dfy ===
/** `Option` stands for something the page may lack: a pending navigation, an element's
    current notice, a parsed message, a `type` argument the caller left out. */
module Wrappers {

  datatype Option<+T> = None | Some(value: T)
}
